=== FILE: README.md ===
# Bookmark checker: a Dafny model of the popup's checking core

The bookmark checker is a browser extension. It walks the bookmark tree,
counts every bookmark, records URLs that appear more than once and sets
non-HTTP(S) URLs aside as ignored. Every other URL goes through a
bounded-concurrency controller to a reachability probe, which races a
five-second timer. The user can pause and resume the run, and starting a new
check aborts the previous controller.

This project models the core of `popup.js` as pure functions over immutable
values:

- `tiering.dfy` (`Tiering`): the `MAX_CONCURRENCY` tier function of the two hardware hints.
- `escape.dfy` (`Escape`): `escapeHtml`, five chained global replacements.
- `controller.dfy` (`Controller`): `createConcurrencyController`. Its state
  is a record: the ceiling, `activeCount`, the FIFO queue, the module-global
  pause flag, an abort generation counter, and the multiset of tasks in
  flight. The events `run`, `next`, `pause`, `resume` and `abort` are
  transitions, and so are the pause/resume button and the pause-flag reset
  made when a new check starts. JavaScript runs each event to completion on
  one loop, so each event is one atomic step.
- `scan.dfy` (`Scan`): `scan` and its counters, duplicate detection,
  classification and result lists. It is a fold over the URL nodes the walk
  reaches. The probe-versus-timer race is an oracle `string -> ProbeResult`
  that answers with a response `{status, error?}` or `Timeout`.
- `decimal.dfy` (`Decimal`): the decimal text of a status code in the
  fallback message `HTTP <status>`.
- `wrappers.dfy` (`Wrappers`): `Option`.

Modelling choices:

- The `AbortController` becomes a generation number. `abort()` aborts the
  current controller and installs a fresh one in the same step, so the signal
  `run` checks is never aborted. `Controller.Run` therefore never returns
  `Rejected`, and the outer `catch` of `scan` (popup.js:259-268) cannot be
  reached.
- Tasks that are running when `abort()` is called keep running, and each
  still calls `next`. `activeCount` can then fall below zero, and a new
  submission can run alongside them. In the extension the only `abort()` call
  (popup.js:53-55) is followed at once by a new controller (popup.js:200), and
  the check button stays disabled for the whole run (popup.js:27, 444). So the
  negative count lives on the orphaned controller, and the new run's tasks go
  to a different object. `Controller.AbortLetsCountGoNegative` describes the
  controller on its own, not the live one. So the model keeps two invariants:
  - `Controller.Safe` holds after every event: `activeCount` never exceeds
    the ceiling.
  - `Controller.Valid` holds as long as there has been no abort and no flag
    reset. Under it, `activeCount` equals the number of tasks in flight, and
    no slot sits idle while an unpaused queue is non-empty.
- `if (node.url)` treats an empty URL string like a missing one, so such a
  node is walked as a folder. A URL node that is ignored returns before its
  children are walked. A missing `children` array is the empty sequence.

## Model

| member | source | states |
|---|---|---|
| Tiering.MaxConcurrency | popup.js:5-18 | The ceiling is always 8, 12 or 17. It is 17 exactly when both hints (a missing or zero hint counting as 4) are at least 8. It is 12 exactly when both are at least 4 but not both at least 8. |
| Tiering.NoHintsGiveMiddleTier | popup.js:7-8 | A browser that reports neither hint, or reports zeros, gets the middle tier, 12. |
| Tiering.MaxConcurrencyMonotone | popup.js:11-17 | More memory and more cores never give a lower ceiling. |
| Escape.EscapeHtml | popup.js:41-48 | The escaped text is never shorter than the input. It keeps its length exactly when the input contains none of `&`, `<`, `>`, `"` and `'`. |
| Escape.EscapeHtmlIsOnePass | popup.js:41-48 | The five chained replacements, ampersand first, equal a one-pass map of each character to its entity. |
| Escape.EscapeHtmlNoMarkup | popup.js:41-48 | The escaped text contains no `<`, `>`, `"` or `'`. |
| Escape.EscapeHtmlPlain | popup.js:41-48 | A string with none of the five special characters comes back unchanged. |
| Escape.EscapeHtmlInjective | popup.js:41-48 | Decoding the five entities recovers the original, so no two strings escape to the same text. |
| Decimal.ParseNatToString | popup.js:246 | The decimal text of a non-negative status reads back as the same number. |
| Decimal.IntToStringInjective | popup.js:246 | Different status codes give different `HTTP <status>` texts. |
| Decimal.IntToString | popup.js:246 | The status text is never empty, and it starts with a minus sign exactly when the status is negative. |
| Controller.Create | popup.js:135-138 | A new controller has an empty queue, `activeCount` 0 and no task in flight. It starts with whatever the shared pause flag holds. |
| Controller.CreateValid | popup.js:200 | The controller built with the tiered ceiling satisfies `Valid`. |
| Controller.Run | popup.js:170-195 | A submission is never rejected. While paused it is always queued at the tail, even with free slots. Otherwise it starts (activeCount + 1, task in flight) exactly when activeCount is below the ceiling, and is queued at the tail when not. |
| Controller.Pause | popup.js:140-143 | Pause only sets the flag. The queue, activeCount and the running tasks are unchanged. |
| Controller.Release | popup.js:164 | A settling task lowers activeCount by one and leaves the tasks in flight with exactly that task removed. The queue, the flag, the ceiling and the generation are unchanged. |
| Controller.Next | popup.js:163-168 | A settling task frees one slot. When paused or with an empty queue, that is all that happens. Otherwise exactly the head is taken off and resubmitted: it starts when the freed count is below the ceiling, and otherwise goes to the tail. |
| Controller.RunAll | popup.js:150-151 | Calling a batch of thunks in order starts the first min(batch length, free slots) of them. The rest go to the queue tail in batch order. |
| Controller.Resume | popup.js:145-153 | Resume clears the flag and takes k = min(ceiling, queue length) items off the front. The first c = min(k, free slots) of them start, in queue order. The queue becomes the untouched remainder followed by the k - c items that found no slot. |
| Controller.ResumeKeepsValid | popup.js:145-153 | From a valid state, the source's resume gives a valid state: activeCount equals the tasks in flight and stays within the ceiling, and no slot is idle beside a non-empty queue. |
| Controller.Abort | popup.js:155-161 | Abort empties the queue and sets activeCount to 0. It leaves the pause flag and the tasks in flight alone. It marks the old signal aborted and advances the generation by exactly one, installing a fresh signal. |
| Controller.Toggle | popup.js:403-411 | The pause/resume button inverts the pause flag. When the flag was set it is exactly `resume` (with its dispatch of queued items); otherwise it is exactly `pause`. |
| Controller.ClearPause | popup.js:28 | Starting a check clears the shared flag and changes nothing else. No queued item is dispatched. |
| Controller.ApplyKeepsValid | popup.js:135-198 | Every event except abort and the flag reset keeps `Valid`. Under `Valid`, activeCount equals the tasks in flight, stays between 0 and the ceiling, and the queue is non-empty while unpaused only when every slot is busy. |
| Controller.ApplyKeepsSafe | popup.js:135-198 | Every event, abort included, keeps activeCount at or below the ceiling. |
| Controller.ApplyPool | popup.js:145-195 | No task is lost or duplicated. A submission adds its id to queue-plus-running, and a completion removes its id. Abort drops exactly the queued ids. Every other event only moves ids between the queue and the running tasks. |
| Controller.ReplayKeepsValid | popup.js:135-198 | Over any sequence of events without abort or flag reset, the number of tasks in flight never exceeds the ceiling. |
| Controller.ReplayKeepsSafe | popup.js:135-198 | Over any sequence of events, aborts included, activeCount never exceeds the ceiling. |
| Controller.AbortIdempotent | popup.js:155-161 | Aborting twice gives the same state as aborting once. Only the number of replaced AbortControllers differs. |
| Controller.SubmitAfterAbort | popup.js:160-172 | A submission right after an abort is admitted. The freshly installed signal never rejects it. |
| Controller.AbortLetsCountGoNegative | popup.js:155-168 | With ceiling 1, if the running task settles after an abort, activeCount is -1. If a task is submitted instead, two tasks are in flight. |
| Controller.ClearPauseLeavesIdleSlot | popup.js:26-29 | Clearing the flag without resuming can leave a queued task next to a free slot. |
| Controller.ResumeReordersQueue | popup.js:145-153 | Ceiling 2, tasks 1 and 2 running, 3, 4 and 5 queued while paused: resume turns the queue into [5, 3, 4]. |
| Controller.ResumeInOrder | popup.js:145-153 | Corrected resume. The queue left behind is a suffix of the old one, so its order is kept. The items that left it are exactly the ones that started. An item stays queued only when every slot is busy. The ceiling and the generation are unchanged. |
| Controller.ResumeInOrderKeepsValid | popup.js:145-153 | The corrected resume keeps `Valid`. |
| Controller.ResumeInOrderWhenIdle | popup.js:145-153 | With nothing running, the source's resume and the corrected one agree. |
| Controller.ResumeStartsSameTasks | popup.js:145-153 | From a valid state, both resumes start the same tasks and leave the same queued tasks. Only the queue order can differ. |
| Controller.SettledWhilePausedThenResumed | popup.js:140-168 | Five tasks, ceiling 2, pause: tasks settling while paused dispatch nothing. Resume then starts 3 and 4 and leaves 5 queued. |
| Scan.Outcome | popup.js:241-256 | A settled race is verified exactly when it is a response with status in [200, 400). A timeout carries the timer's message. Any other response carries its non-empty error, or else `HTTP <status>`. |
| Scan.Classify | popup.js:212-256 | Each URL gets exactly one verdict. It is ignored exactly when it starts with neither `http:` nor `https:`, and then it is never probed. Otherwise the verdict is the outcome of its probe. |
| Scan.HttpSchemes | popup.js:212 | A URL is probed exactly when it begins with lower-case `http` followed by `:` or by `s:`. Upper-case schemes and `httpx:` are ignored. |
| Scan.FailureMessage | popup.js:246 | The failure message is never empty. A non-empty `error` is the message; otherwise it is `HTTP ` followed by the status text. |
| Scan.Visit | popup.js:204-218 | Discovering a URL node counts it and adds one to its URL's count. It marks the URL as a duplicate exactly when it was seen before. The node is handed to the controller exactly when it is HTTP(S); otherwise ignored and its ignored entry each grow by one. A handed-on node leaves ignored and the ignored list alone. Verified, unverified and the unverified list never change. Nodes counted but not settled grow by one exactly when it is handed on. |
| Scan.Settle | popup.js:241-256 | A settling task raises exactly one of verified or unverified, together with processed. An unverified one appends `{title, url, error}`. Settling a counted node keeps processed at or below total. |
| Scan.SettleCommutes | popup.js:241-256 | Two completions in either order give the same counters and the same unverified entries. |
| Scan.VisitCommutes | popup.js:203-218 | Two sibling discoveries in either order give the same counters, URL counts, duplicates and ignored entries. |
| Scan.ScanItem | popup.js:204-268 | One URL node, from discovery to its verdict, raises total and processed by one and keeps the counters consistent. |
| Scan.NodeOrder | popup.js:204-270 | A node with a non-empty URL is counted before anything below it. A non-HTTP URL node contributes itself alone, since it returns before its children. An HTTP URL node is followed by its children's walk. A node without a URL contributes exactly its children's walk. Every counted node has a non-empty URL. |
| Scan.ForestOrder | popup.js:270-274 | Every node the walk of a forest counts has a non-empty URL. |
| Scan.ForestOrderAppend | popup.js:270-274 | Every tree of a forest is walked whatever the earlier trees hold: the walk of two forests side by side is the first walk followed by the second. |
| Scan.ScanAll | popup.js:203-274 | Folding the scan over the walked nodes settles every one of them: total and processed each grow by the number of nodes, and the bookkeeping stays consistent. |
| Scan.ScanForest | popup.js:203-274 | After the whole forest, total is the number of nodes the walk counts, processed equals total, and the counters are consistent. |
| Scan.ForestOrderWithin | popup.js:203-271 | The walk never counts more nodes than the forest has URL nodes. When URL nodes are leaves, it counts every one of them. |
| Scan.ForestOrderComplete | popup.js:204-270 | When no ignored URL node has URL nodes below it, the walk counts every URL node of the forest, the children of HTTP URL nodes included, in depth-first order. |
| Scan.ClassesPartition | popup.js:212-268 | Verified, unverified and ignored nodes together are all the nodes. |
| Scan.ScanAllCounts | popup.js:203-274 | Each counter of the fold is its start value plus the count of nodes of its class. |
| Scan.ScanAllLists | popup.js:203-274 | The unverified and ignored lists are extended by exactly the nodes of their class. |
| Scan.ScanAllTracks | popup.js:203-274 | The URL counts match the occurrences met so far, and the duplicate set holds exactly the URLs met twice or more. |
| Scan.ScanReplayConsistent | popup.js:203-256 | Over any interleaving of discoveries and completions, where a completion needs a pending node, the counters stay consistent, processed never exceeds total, and total counts exactly the discoveries. |
| Scan.ScanForestReport | popup.js:203-274 | After a full scan, total is the number of scanned URL nodes, and processed = verified + unverified + ignored = total. The list lengths match unverified and ignored. The duplicate set is the set of URLs met at least twice, ignored ones included. |
| Scan.MixedLeavesExample | popup.js:203-274 | Reachable `http://a`, `ftp://b` and silent `http://c` give 3 total, 1 verified, 1 ignored, 1 unverified with the timeout message, and no duplicates. |
| Scan.SameUrlTwiceExample | popup.js:203-274 | The same reachable URL in two folders is counted and verified twice and reported once as a duplicate. |
| Scan.IgnoredNodeHidesChildren | popup.js:212-218 | The HTTP child of an ignored URL node is never counted. |
| Scan.EmptyUrlIsFolder | popup.js:204 | A node whose URL is the empty string is walked as a folder. |

## Left out

- DOM and HTML output: the stats markup, `renderUnverifiedList`, report assembly, loading and button helpers. These are presentation only.
- `chrome.bookmarks.getTree`, `chrome.runtime.sendMessage` and all of `background.js`: these are foreign I/O. The forest is a parameter, and the race result is an oracle per URL. Its real values are 200, 500 with an error, and 408 with an error.
- `setTimeout` and `Promise.race` timing: real time. A timeout is one oracle outcome. A response object without a `status` is not modelled: `undefined >= 200` is false, so the source would record `HTTP undefined` (or the response's error) as unverified. The background script always answers with a status. Only a missing response would throw a `TypeError`, which the inner `catch` would also record as unverified.
- The progress percentage `Math.round(processed/total*100)`: floating point.
- The signal object handed to each task: the task never reads it, so only the controller's generation is kept.
- `navigator.deviceMemory` and `navigator.hardwareConcurrency` are plain optional inputs. A `NaN` hint, which JavaScript also treats as falsy, is not modelled.
- The `globalController` null check in the pause/resume handler, and the thrown-error logging around it.
- The queued thunks dropped by `abort()` never resolve, so the aborted run's `analyzeBookmarks` never finishes. The model records that abort drops them (`Controller.ApplyPool`), but not the pending promises.
- Scan.ScanForestReport: the fold settles each node right after discovering it, in depth-first order. The source's completions arrive in network order, so the real `invalidUrls` list has the same entries in completion order. `Scan.SettleCommutes` and `Scan.VisitCommutes` cover the counters under reordering, but the list order is not fixed. When an HTTP URL node has URL nodes below it, the source walks them only after the node's probe settles, so later siblings are discovered first. The real `ignoredUrls` order then differs from the depth-first `IgnoredList` as well; its entries and counts do not.
- Scan.ScanAllCounts: the scan is not wired to the controller. It assumes every submitted task settles, which holds when no abort happens and a paused run is resumed. A run left paused never settles its queued tasks, and on the controller alone a flag reset with nothing running can strand a queued task (`Controller.ClearPauseLeavesIdleSlot`). In the extension the reset (popup.js:28) runs only from the check button, which stays disabled from popup.js:27 and 444 until the run ends at popup.js:383, when the old queue is already empty. `Scan.ScanReplayConsistent` covers runs that stop part-way.
- Scan.Classify: the probe oracle is a function of the URL, so two nodes with the same URL always get the same verdict. The source starts a fresh request and a fresh timer for each node, so one may time out while the other answers. `Scan.SameUrlTwiceExample` relies on the shared verdict.
- Decimal.IntToString: it writes every digit. JavaScript's number-to-string conversion switches to exponent form from 10^21 (`1e+21`), and a non-integral status has no `int` counterpart. Real statuses are small integers such as 200, 408 and 500.

## Findings

| source | as written | input that shows it | evidently intended | confidence | as-written member | corrected member |
|---|---|---|---|---|---|---|
| popup.js:145-153 | `resume` splices `maxConcurrency` items, not `maxConcurrency - activeCount`. Items that find no slot re-enter `run` and are pushed behind the rest of the queue. | Ceiling 2, tasks 1 and 2 running, tasks 3, 4, 5 queued while paused; resume before 1 or 2 settles. The queue becomes [5, 3, 4], so task 5 starts before 3 and 4. | Resume keeps the queue in submission order: start as many front items as there are free slots and leave the rest in place. | medium, not executed | Controller.ResumeReordersQueue | Controller.ResumeInOrder |

`Controller.ResumeInOrder` keeps `Valid` and keeps the queue a suffix of its
former self. `Controller.ResumeStartsSameTasks` shows it starts the same
tasks as the source's resume, and `Controller.ResumeInOrderWhenIdle` shows
the two agree whenever nothing is running. The event model `Controller.Apply`
still uses the as-written `Controller.Resume`, since it describes what the
extension does.

=== FILE: controller.dfy ===
/**
 The bounded-concurrency controller built by `createConcurrencyController`
 (`run`, `next`, `pause`, `resume`, `abort`) together with the module-global
 pause flag it shares with the pause/resume button and with the start of a new
 check. JavaScript runs every event to completion on one loop, so each event is
 one atomic transition here. A task is named by a `TaskId`; starting it puts it
 in `running`, and it stays there until its `fn` settles and calls `next`, even
 after an abort.
 */
module Controller {
  import opened Wrappers
  import Tiering

  type TaskId = nat

  datatype State = State(
    maxConcurrency: int,        // fixed for the controller's lifetime
    active: int,                // activeCount; may go below zero after an abort
    queue: seq<TaskId>,         // waiting thunks, each one re-enters Run when called
    paused: bool,               // the module-global isPaused
    generation: nat,            // how many AbortControllers were replaced so far
    running: multiset<TaskId>)  // tasks whose fn has started and not yet called next

  datatype Admission = Started | Queued | Rejected

  datatype Submitted = Submitted(state: State, admission: Admission)

  function Min(a: int, b: int): int
  {
    if a <= b then a else b
  }

  /** A fresh controller; the pause flag is whatever the global flag holds at that moment. */
  function Create(maxConcurrency: int, paused: bool): (s: State)
    ensures s.queue == [] && s.active == 0 && |s.running| == 0
    ensures s.paused == paused && s.maxConcurrency == maxConcurrency
  {
    State(maxConcurrency, 0, [], paused, 0, multiset{})
  }

  /**
   The signal handed out while `generation` was current has been aborted
   exactly when a later abort replaced its AbortController.
   */
  predicate SignalAborted(s: State, generation: nat)
  {
    generation < s.generation
  }

  /** Free slots as `run` sees them: none once activeCount reaches the ceiling. */
  function Room(s: State): (n: nat)
    ensures s.active < s.maxConcurrency <==> n > 0
    ensures n > 0 ==> s.active + n == s.maxConcurrency
  {
    if s.active < s.maxConcurrency then s.maxConcurrency - s.active else 0
  }

  /**
   `run(fn)`: reject if the current signal is aborted, queue while paused even
   with free slots, otherwise start when below the ceiling and queue at the
   tail when not.
   */
  function Run(s: State, id: TaskId): (r: Submitted)
    ensures r.admission != Rejected
    ensures r.state.paused == s.paused && r.state.maxConcurrency == s.maxConcurrency
    ensures r.state.generation == s.generation
    ensures r.admission == Started <==> !s.paused && s.active < s.maxConcurrency
    ensures r.admission == Started ==>
              r.state.active == s.active + 1 && r.state.queue == s.queue
              && r.state.running == s.running + multiset{id}
    ensures r.admission == Queued ==>
              r.state.active == s.active && r.state.queue == s.queue + [id]
              && r.state.running == s.running
  {
    if SignalAborted(s, s.generation) then Submitted(s, Rejected)
    else if s.paused then Submitted(s.(queue := s.queue + [id]), Queued)
    else if s.active < s.maxConcurrency then
      Submitted(s.(active := s.active + 1, running := s.running + multiset{id}), Started)
    else Submitted(s.(queue := s.queue + [id]), Queued)
  }

  /** `pause()`: only the flag changes; running tasks and the queue are untouched. */
  function Pause(s: State): (r: State)
    ensures r.paused
    ensures r.(paused := s.paused) == s
  {
    s.(paused := true)
  }

  /** The `activeCount--` half of `next` for the task `id` that just settled. */
  function Release(s: State, id: TaskId): (r: State)
    requires id in s.running
    ensures r.active == s.active - 1 && |r.running| == |s.running| - 1
    ensures r.running + multiset{id} == s.running
    ensures r.queue == s.queue && r.paused == s.paused
    ensures r.maxConcurrency == s.maxConcurrency && r.generation == s.generation
  {
    s.(active := s.active - 1, running := s.running - multiset{id})
  }

  /**
   `next()`, called from the `finally` of a started task: one slot is freed,
   and unless paused the head of the queue (only the head) re-enters Run.
   */
  function Next(s: State, id: TaskId): (r: State)
    requires id in s.running
    ensures r.paused == s.paused && r.maxConcurrency == s.maxConcurrency
    ensures r.generation == s.generation
    ensures s.paused || s.queue == [] ==> r == Release(s, id)
    ensures !s.paused && s.queue != [] && s.active - 1 < s.maxConcurrency ==>
              r.active == s.active && r.queue == s.queue[1..]
              && r.running == s.running - multiset{id} + multiset{s.queue[0]}
    ensures !s.paused && s.queue != [] && s.active - 1 >= s.maxConcurrency ==>
              r.active == s.active - 1 && r.queue == s.queue[1..] + [s.queue[0]]
              && r.running == s.running - multiset{id}
  {
    var t := Release(s, id);
    if !t.paused && |t.queue| > 0 then Run(t.(queue := t.queue[1..]), t.queue[0]).state
    else t
  }

  /** What calling the thunks of `batch` in order does: the first `c` start, the rest are re-queued. */
  predicate RanInOrder(s: State, batch: seq<TaskId>, r: State)
  {
    var c := Min(|batch|, Room(s));
    && r.active == s.active + c
    && r.running == s.running + multiset(batch[..c])
    && r.queue == s.queue + batch[c..]
    && r.paused == s.paused && r.maxConcurrency == s.maxConcurrency
    && r.generation == s.generation
  }

  /** One more thunk in front of a batch that already behaves as RanInOrder says. */
  lemma RanInOrderStep(s: State, batch: seq<TaskId>, r: State)
    requires !s.paused && batch != []
    requires RanInOrder(Run(s, batch[0]).state, batch[1..], r)
    ensures RanInOrder(s, batch, r)
  {
    var b, rest := batch[0], batch[1..];
    var t := Run(s, b).state;
    var c := Min(|batch|, Room(s));
    assert batch == [b] + rest;
    if Room(s) > 0 {
      assert Room(t) == Room(s) - 1;
      assert Min(|rest|, Room(t)) == c - 1;
      assert batch[..c] == [b] + rest[..c - 1];
      assert rest[c - 1..] == batch[c..];
      assert multiset(batch[..c]) == multiset{b} + multiset(rest[..c - 1]);
    } else {
      assert Room(t) == 0;
      assert batch[..0] == [] && rest[..0] == [];
      assert t.queue + rest == s.queue + batch;
    }
  }

  /**
   Calls the thunks of `batch` one after another, as `batch.forEach(task => task())`
   does: the first ones take the free slots, the rest go back to the queue tail
   in batch order.
   */
  function RunAll(s: State, batch: seq<TaskId>): (r: State)
    requires !s.paused
    ensures var c := Min(|batch|, Room(s));
            && r.active == s.active + c
            && r.running == s.running + multiset(batch[..c])
            && r.queue == s.queue + batch[c..]
            && r.paused == s.paused && r.maxConcurrency == s.maxConcurrency
            && r.generation == s.generation
    decreases |batch|
  {
    if batch == [] then s
    else
      var r := RunAll(Run(s, batch[0]).state, batch[1..]);
      RanInOrderStep(s, batch, r);
      r
  }

  /** `queue.splice(0, n)` removes `n` items, none for a count below one, at most all. */
  function SpliceCount(n: int, length: nat): (k: nat)
    ensures k <= length
  {
    if n <= 0 then 0 else Min(n, length)
  }

  /** How many queued items `resume` takes off the front. */
  function BatchSize(s: State): (k: nat)
    ensures k <= |s.queue|
    ensures s.maxConcurrency >= 1 ==> k == Min(s.maxConcurrency, |s.queue|)
  {
    if |s.queue| > 0 then SpliceCount(s.maxConcurrency, |s.queue|) else 0
  }

  /**
   `resume()`: clears the flag, takes up to maxConcurrency items (not
   maxConcurrency - activeCount) off the front and calls them in queue order.
   Those that find a slot start; those that do not go to the back of what
   was left behind.
   */
  function Resume(s: State): (r: State)
    ensures !r.paused
    ensures r.maxConcurrency == s.maxConcurrency && r.generation == s.generation
    ensures var k := BatchSize(s); var c := Min(k, Room(s));
            && r.queue == s.queue[k..] + s.queue[c..k]
            && r.running == s.running + multiset(s.queue[..c])
            && r.active == s.active + c
  {
    var t := s.(paused := false);
    if |t.queue| > 0 then
      var k := SpliceCount(t.maxConcurrency, |t.queue|);
      var q := t.queue;
      assert q[..k][..Min(k, Room(s))] == q[..Min(k, Room(s))];
      assert q[..k][Min(k, Room(s))..] == q[Min(k, Room(s))..k];
      RunAll(t.(queue := q[k..]), q[..k])
    else t
  }

  /**
   `abort()`: aborts the current AbortController and installs a new one at
   once, drops every queued thunk unrun and zeroes activeCount. Tasks already
   running keep running and will still call `next`.
   */
  function Abort(s: State): (r: State)
    ensures r.queue == [] && r.active == 0
    ensures r.paused == s.paused && r.running == s.running
    ensures r.maxConcurrency == s.maxConcurrency
    ensures SignalAborted(r, s.generation) && r.generation == s.generation + 1
  {
    s.(queue := [], active := 0, generation := s.generation + 1)
  }

  /** The pause/resume button: resume when the global flag is set, pause otherwise. */
  function Toggle(s: State): (r: State)
    ensures r.paused == !s.paused
    ensures s.paused ==> r == Resume(s)
    ensures !s.paused ==> r == Pause(s)
  {
    if s.paused then Resume(s) else Pause(s)
  }

  /** Starting a new check writes `isPaused = false` without calling `resume`. */
  function ClearPause(s: State): (r: State)
    ensures !r.paused
    ensures r.(paused := s.paused) == s
  {
    s.(paused := false)
  }

  datatype Event =
    | Submit(id: TaskId)
    | Complete(id: TaskId)
    | PauseEvent
    | ResumeEvent
    | ToggleEvent
    | AbortEvent
    | ClearPauseEvent

  /** Only a task that is running can settle and call `next`. */
  predicate Enabled(s: State, e: Event)
  {
    e.Complete? ==> e.id in s.running
  }

  function Apply(s: State, e: Event): State
    requires Enabled(s, e)
  {
    match e
    case Submit(id) => Run(s, id).state
    case Complete(id) => Next(s, id)
    case PauseEvent => Pause(s)
    case ResumeEvent => Resume(s)
    case ToggleEvent => Toggle(s)
    case AbortEvent => Abort(s)
    case ClearPauseEvent => ClearPause(s)
  }

  /** Applies a sequence of events; None if one of them could not happen. */
  function Replay(s: State, events: seq<Event>): Option<State>
    decreases |events|
  {
    if events == [] then Some(s)
    else if !Enabled(s, events[0]) then None
    else Replay(Apply(s, events[0]), events[1..])
  }

  /** Holds after any events, aborts included: activeCount stays at or below the ceiling. */
  predicate Safe(s: State)
  {
    && s.maxConcurrency >= 1
    && s.active <= s.maxConcurrency
    && s.active <= |s.running|
  }

  /**
   Holds while no abort and no flag reset has happened: activeCount counts
   exactly the running tasks, never exceeds the ceiling, and a free slot is
   never left idle while the queue is non-empty and not paused.
   */
  predicate Valid(s: State)
  {
    && s.maxConcurrency >= 1
    && 0 <= s.active <= s.maxConcurrency
    && s.active == |s.running|
    && (!s.paused && s.queue != [] ==> s.active == s.maxConcurrency)
  }

  /** Every task the controller still knows of: queued or running. */
  function Pool(s: State): multiset<TaskId>
  {
    multiset(s.queue) + s.running
  }

  /** The controller the popup builds, with the ceiling from the hardware tiers, starts valid. */
  lemma CreateValid(deviceMemory: Option<real>, hardwareConcurrency: Option<int>, paused: bool)
    ensures Valid(Create(Tiering.MaxConcurrency(deviceMemory, hardwareConcurrency), paused))
  {
  }

  lemma ResumeKeepsValid(s: State)
    requires Valid(s)
    ensures Valid(Resume(s))
  {
    var r := Resume(s);
    var k := BatchSize(s);
    var c := Min(k, Room(s));
    assert |multiset(s.queue[..c])| == c;
    if r.queue != [] {
      assert k < |s.queue| || c < k;
    }
  }

  /** Every event but an abort or a flag reset keeps Valid. */
  lemma ApplyKeepsValid(s: State, e: Event)
    requires Valid(s) && Enabled(s, e)
    requires !e.AbortEvent? && !e.ClearPauseEvent?
    ensures Valid(Apply(s, e))
  {
    match e
    case ResumeEvent => ResumeKeepsValid(s);
    case ToggleEvent => if s.paused { ResumeKeepsValid(s); }
    case Complete(id) =>
      assert |s.running| >= 1;
    case _ =>
  }

  /** Every event, aborts included, keeps Safe. */
  lemma ApplyKeepsSafe(s: State, e: Event)
    requires Safe(s) && Enabled(s, e)
    ensures Safe(Apply(s, e))
  {
    match e
    case ResumeEvent =>
      assert |multiset(s.queue[..Min(BatchSize(s), Room(s))])| == Min(BatchSize(s), Room(s));
    case ToggleEvent =>
      assert |multiset(s.queue[..Min(BatchSize(s), Room(s))])| == Min(BatchSize(s), Room(s));
    case _ =>
  }

  lemma ResumeKeepsPool(s: State)
    ensures Pool(Resume(s)) == Pool(s)
  {
    var k := BatchSize(s);
    var c := Min(k, Room(s));
    var q := s.queue;
    assert q == q[..c] + q[c..k] + q[k..];
  }

  lemma NextPool(s: State, id: TaskId)
    requires id in s.running
    ensures Pool(Next(s, id)) + multiset{id} == Pool(s)
  {
    var t := Release(s, id);
    if !s.paused && s.queue != [] {
      var q := s.queue;
      assert q == [q[0]] + q[1..];
      assert multiset(q) == multiset{q[0]} + multiset(q[1..]);
      var u := t.(queue := q[1..]);
      var r := Run(u, q[0]);
      if r.admission == Started {
        assert Pool(r.state) == multiset(q[1..]) + t.running + multiset{q[0]};
      } else {
        assert Pool(r.state) == multiset(q[1..] + [q[0]]) + t.running;
      }
    }
  }

  /**
   No task is lost or duplicated: a submission adds its id, a completion
   removes its id, abort forgets exactly the queued ones, and every other
   event only moves ids between the queue and the running tasks.
   */
  lemma ApplyPool(s: State, e: Event)
    requires Enabled(s, e)
    ensures e.Submit? ==> Pool(Apply(s, e)) == Pool(s) + multiset{e.id}
    ensures e.Complete? ==> Pool(Apply(s, e)) + multiset{e.id} == Pool(s)
    ensures e.AbortEvent? ==> Pool(Apply(s, e)) == s.running
    ensures !e.Submit? && !e.Complete? && !e.AbortEvent? ==> Pool(Apply(s, e)) == Pool(s)
  {
    match e
    case Complete(id) => NextPool(s, id);
    case ResumeEvent => ResumeKeepsPool(s);
    case ToggleEvent => if s.paused { ResumeKeepsPool(s); }
    case Submit(id) =>
      assert multiset(s.queue + [id]) == multiset(s.queue) + multiset{id};
    case _ =>
  }

  /** Without aborts and flag resets, Valid holds after every prefix of events. */
  lemma {:induction false} ReplayKeepsValid(s: State, events: seq<Event>)
    requires Valid(s)
    requires forall i :: 0 <= i < |events| ==> !events[i].AbortEvent? && !events[i].ClearPauseEvent?
    requires Replay(s, events).Some?
    ensures Valid(Replay(s, events).value)
    ensures Replay(s, events).value.active <= s.maxConcurrency
    ensures |Replay(s, events).value.running| <= s.maxConcurrency
    decreases |events|
  {
    if events != [] {
      ApplyKeepsValid(s, events[0]);
      ReplayKeepsValid(Apply(s, events[0]), events[1..]);
      assert Apply(s, events[0]).maxConcurrency == s.maxConcurrency;
    }
  }

  /** With aborts, activeCount still never exceeds the ceiling. */
  lemma {:induction false} ReplayKeepsSafe(s: State, events: seq<Event>)
    requires Safe(s)
    requires Replay(s, events).Some?
    ensures Safe(Replay(s, events).value)
    ensures Replay(s, events).value.active <= s.maxConcurrency
    decreases |events|
  {
    if events != [] {
      ApplyKeepsSafe(s, events[0]);
      ReplayKeepsSafe(Apply(s, events[0]), events[1..]);
    }
  }

  /** Two aborts leave the state of one abort; only the AbortController object differs. */
  lemma AbortIdempotent(s: State)
    ensures Abort(Abort(s)).(generation := 0) == Abort(s).(generation := 0)
    ensures Abort(Abort(s)).generation == Abort(s).generation + 1
  {
  }

  /** A submission right after an abort is admitted, never rejected. */
  lemma SubmitAfterAbort(s: State, id: TaskId)
    requires Safe(s) && !s.paused
    ensures Run(Abort(s), id).admission == Started
  {
  }

  /**
   With a ceiling of 1: start task 1, abort, let task 1 settle. activeCount
   is -1. Submitting task 2 before task 1 settles runs two tasks at once.
   */
  lemma AbortLetsCountGoNegative()
    ensures var s1 := Run(Create(1, false), 1).state;
            var s2 := Abort(s1);
            && Next(s2, 1).active == -1
            && |Run(s2, 2).state.running| == 2
            && !Valid(Run(s2, 2).state)
  {
    var s1 := Run(Create(1, false), 1).state;
    assert s1.running == multiset{1};
    var s2 := Abort(s1);
    assert Run(s2, 2).state.running == multiset{1, 2};
  }

  /** Resetting the flag at the start of a new check can leave a queued task with a free slot. */
  lemma ClearPauseLeavesIdleSlot()
    ensures var s := Run(Create(2, true), 7).state;
            && Valid(s)
            && var t := ClearPause(s);
            !t.paused && t.queue == [7] && t.active == 0 && !Valid(t)
  {
  }

  /**
   The resume a FIFO queue calls for: start the front items that fit in the
   free slots and leave everything else where it was.
   */
  function ResumeInOrder(s: State): (r: State)
    ensures !r.paused
    ensures |s.queue| - |r.queue| == Min(|s.queue|, Room(s))
    ensures r.queue == s.queue[|s.queue| - |r.queue|..]
    ensures r.running == s.running + multiset(s.queue[..|s.queue| - |r.queue|])
    ensures r.active == s.active + (|s.queue| - |r.queue|)
    ensures r.queue != [] ==> r.active >= s.maxConcurrency
    ensures r.maxConcurrency == s.maxConcurrency && r.generation == s.generation
  {
    var t := s.(paused := false);
    var c := Min(|t.queue|, Room(t));
    var batch := t.queue[..c];
    assert batch[..c] == batch && batch[c..] == [];
    var r := RunAll(t.(queue := t.queue[c..]), batch);
    assert |r.queue| == |t.queue| - c;
    r
  }

  lemma ResumeInOrderKeepsValid(s: State)
    requires Valid(s)
    ensures Valid(ResumeInOrder(s))
  {
    var r := ResumeInOrder(s);
    assert |multiset(s.queue[..|s.queue| - |r.queue|])| == |s.queue| - |r.queue|;
  }

  /** When nothing is running, popup.js's resume is the in-order one. */
  lemma ResumeInOrderWhenIdle(s: State)
    requires Valid(s) && s.active == 0
    ensures Resume(s) == ResumeInOrder(s)
  {
    var k := BatchSize(s);
    assert Min(k, Room(s)) == k == Min(|s.queue|, Room(s));
    assert s.queue[k..] + s.queue[k..k] == s.queue[k..];
    var r, o := Resume(s), ResumeInOrder(s);
    assert |s.queue| - |o.queue| == k;
    assert r.queue == o.queue && r.running == o.running && r.active == o.active;
  }

  /** From any valid state both resumes start the same tasks; only the queue's order can differ. */
  lemma ResumeStartsSameTasks(s: State)
    requires Valid(s)
    ensures Resume(s).running == ResumeInOrder(s).running
    ensures Resume(s).active == ResumeInOrder(s).active
    ensures multiset(Resume(s).queue) == multiset(ResumeInOrder(s).queue)
  {
    var k := BatchSize(s);
    var c := Min(k, Room(s));
    var q := s.queue;
    assert c == Min(|q|, Room(s));
    RotatedSameElements(q, c, k);
  }

  lemma RotatedSameElements(q: seq<TaskId>, c: nat, k: nat)
    requires c <= k <= |q|
    ensures multiset(q[k..] + q[c..k]) == multiset(q[c..])
  {
    assert q[c..] == q[c..k] + q[k..];
  }

  /** Ceiling 2, tasks 1 to 5 submitted, paused: tasks 1 and 2 run and 3, 4, 5 wait. */
  function PausedWithFullSlots(): State
  {
    Pause(Run(Run(Run(Run(Run(Create(2, false), 1).state, 2).state, 3).state, 4).state, 5).state)
  }

  lemma PausedWithFullSlotsShape()
    ensures PausedWithFullSlots() == State(2, 2, [3, 4, 5], true, 0, multiset{1, 2})
    ensures Valid(PausedWithFullSlots())
  {
    var s1 := Run(Create(2, false), 1).state;
    assert s1 == State(2, 1, [], false, 0, multiset{1});
    var s2 := Run(s1, 2).state;
    assert s2 == State(2, 2, [], false, 0, multiset{1, 2});
    var s3 := Run(s2, 3).state;
    assert s3 == State(2, 2, [3], false, 0, multiset{1, 2});
    var s4 := Run(s3, 4).state;
    assert s4 == State(2, 2, [3, 4], false, 0, multiset{1, 2});
    var s5 := Run(s4, 5).state;
    assert s5 == State(2, 2, [3, 4, 5], false, 0, multiset{1, 2});
  }

  /**
   Resuming before tasks 1 and 2 settle takes 3 and 4 off the front, finds no
   slot for either and appends them behind 5: task 5 now starts first.
   */
  lemma ResumeReordersQueue()
    ensures Resume(PausedWithFullSlots()).queue == [5, 3, 4]
    ensures ResumeInOrder(PausedWithFullSlots()).queue == [3, 4, 5]
  {
    PausedWithFullSlotsShape();
    var s := PausedWithFullSlots();
    assert BatchSize(s) == 2 && Room(s) == 0;
    assert s.queue[2..] + s.queue[0..2] == [5, 3, 4];
  }

  /**
   The same five tasks, but 1 and 2 settle while paused: nothing is
   dispatched until resume, which then starts 3 and 4 and leaves 5 queued.
   */
  lemma SettledWhilePausedThenResumed()
    ensures var s := Next(Next(PausedWithFullSlots(), 1), 2);
            && s == State(2, 0, [3, 4, 5], true, 0, multiset{})
            && Resume(s) == State(2, 2, [5], false, 0, multiset{3, 4})
  {
    PausedWithFullSlotsShape();
    var s := Next(Next(PausedWithFullSlots(), 1), 2);
    assert s.running == multiset{};
    assert BatchSize(s) == 2 && Room(s) == 2;
    assert s.queue[..2] == [3, 4] && s.queue[2..] == [5];
    assert multiset([3, 4]) == multiset{3, 4};
  }
}

=== FILE: decimal.dfy ===
/**
 Decimal text of an integer, as in the fallback message
 `HTTP ${response.status}`. It agrees with JavaScript's number-to-string
 conversion for integers of magnitude below 10^21, which covers every HTTP
 status; JavaScript switches to exponent form beyond that.
 */
module Decimal {

  predicate IsDigit(c: char)
  {
    '0' <= c <= '9'
  }

  function DigitChar(d: nat): (c: char)
    requires d < 10
    ensures IsDigit(c) && c as int - '0' as int == d
  {
    (d + '0' as int) as char
  }

  /** Shortest decimal spelling: no sign, no leading zero except for zero itself. */
  function NatToString(n: nat): (r: string)
    ensures |r| >= 1
    ensures forall i :: 0 <= i < |r| ==> IsDigit(r[i])
    ensures r[0] == '0' ==> n == 0
    decreases n
  {
    if n < 10 then [DigitChar(n)] else NatToString(n / 10) + [DigitChar(n % 10)]
  }

  /** A negative number is written with a leading minus sign. */
  function IntToString(i: int): (r: string)
    ensures |r| >= 1
    ensures r[0] == '-' <==> i < 0
  {
    if i < 0 then "-" + NatToString(-i) else NatToString(i)
  }

  /** Reads a string of digits back as a number, most significant digit first. */
  function ParseNat(s: string): nat
    requires forall i :: 0 <= i < |s| ==> IsDigit(s[i])
    decreases |s|
  {
    if s == [] then 0
    else
      var last := s[|s| - 1];
      assert IsDigit(last);
      ParseNat(s[..|s| - 1]) * 10 + (last as int - '0' as int)
  }

  lemma {:induction false} ParseNatToString(n: nat)
    ensures ParseNat(NatToString(n)) == n
    decreases n
  {
    var r := NatToString(n);
    if n >= 10 {
      var front := NatToString(n / 10);
      assert r == front + [DigitChar(n % 10)];
      assert r[..|r| - 1] == front;
      ParseNatToString(n / 10);
    }
  }

  /** Different numbers get different messages. */
  lemma IntToStringInjective(a: int, b: int)
    requires IntToString(a) == IntToString(b)
    ensures a == b
  {
    if a < 0 {
      assert IntToString(a)[1..] == NatToString(-a);
      assert IntToString(b)[1..] == NatToString(-b);
      ParseNatToString(-a);
      ParseNatToString(-b);
    } else {
      ParseNatToString(a);
      ParseNatToString(b);
    }
  }
}

=== FILE: escape.dfy ===
/**
 `escapeHtml`: five chained global replacements, ampersand first, used on
 every title, URL and error message before it is put into the report markup.
 */
module Escape {

  /** `s.replace(/c/g, rep)` for a pattern that is one literal character. */
  function ReplaceAll(s: string, c: char, rep: string): (r: string)
    ensures |rep| >= 1 ==> |r| >= |s|
    ensures |rep| >= 2 ==> (|r| == |s| <==> c !in s)
    decreases |s|
  {
    if s == [] then []
    else (if s[0] == c then rep else [s[0]]) + ReplaceAll(s[1..], c, rep)
  }

  /** A character that is neither the pattern nor part of the replacement occurs after exactly when before. */
  lemma {:induction false} ReplaceAllKeepsChar(s: string, c: char, rep: string, d: char)
    requires d != c && d !in rep
    ensures d in ReplaceAll(s, c, rep) <==> d in s
    decreases |s|
  {
    if s != [] {
      ReplaceAllKeepsChar(s[1..], c, rep, d);
      assert s == [s[0]] + s[1..];
    }
  }

  /**
   `escapeHtml` in popup.js, its five replacements in their order there. The
   text never shrinks, and it keeps its length exactly when there is nothing
   to escape.
   */
  function EscapeHtml(s: string): (r: string)
    ensures |r| >= |s|
    ensures |r| == |s| <==> forall i :: 0 <= i < |s| ==> !IsSpecial(s[i])
  {
    var amp := ReplaceAll(s, '&', "&amp;");
    ReplaceAllKeepsChar(s, '&', "&amp;", '<');
    ReplaceAllKeepsChar(s, '&', "&amp;", '>');
    ReplaceAllKeepsChar(s, '&', "&amp;", '"');
    ReplaceAllKeepsChar(s, '&', "&amp;", '\'');
    var lt := ReplaceAll(amp, '<', "&lt;");
    ReplaceAllKeepsChar(amp, '<', "&lt;", '>');
    ReplaceAllKeepsChar(amp, '<', "&lt;", '"');
    ReplaceAllKeepsChar(amp, '<', "&lt;", '\'');
    var gt := ReplaceAll(lt, '>', "&gt;");
    ReplaceAllKeepsChar(lt, '>', "&gt;", '"');
    ReplaceAllKeepsChar(lt, '>', "&gt;", '\'');
    var quot := ReplaceAll(gt, '"', "&quot;");
    ReplaceAllKeepsChar(gt, '"', "&quot;", '\'');
    assert (forall i :: 0 <= i < |s| ==> !IsSpecial(s[i]))
           <==> '&' !in s && '<' !in s && '>' !in s && '"' !in s && '\'' !in s;
    ReplaceAll(quot, '\'', "&#039;")
  }

  predicate IsSpecial(c: char)
  {
    c == '&' || c == '<' || c == '>' || c == '"' || c == '\''
  }

  /** The entity each character stands for in a one-pass encoder. */
  function EscapeChar(c: char): (r: string)
    ensures IsSpecial(c) <==> r != [c]
  {
    match c
    case '&' => "&amp;"
    case '<' => "&lt;"
    case '>' => "&gt;"
    case '"' => "&quot;"
    case '\'' => "&#039;"
    case _ => [c]
  }

  /** Reference definition: map every character through EscapeChar, left to right. */
  function EscapeEach(s: string): string
  {
    if s == [] then [] else EscapeChar(s[0]) + EscapeEach(s[1..])
  }

  lemma {:induction false} ReplaceAllAppend(a: string, b: string, c: char, rep: string)
    ensures ReplaceAll(a + b, c, rep) == ReplaceAll(a, c, rep) + ReplaceAll(b, c, rep)
    decreases |a|
  {
    if a == [] {
      assert a + b == b;
    } else {
      assert (a + b)[1..] == a[1..] + b;
      ReplaceAllAppend(a[1..], b, c, rep);
    }
  }

  lemma {:induction false} ReplaceAllAbsent(s: string, c: char, rep: string)
    requires c !in s
    ensures ReplaceAll(s, c, rep) == s
    decreases |s|
  {
    if s != [] {
      assert c !in s[1..];
      ReplaceAllAbsent(s[1..], c, rep);
    }
  }

  lemma EscapeHtmlAppend(a: string, b: string)
    ensures EscapeHtml(a + b) == EscapeHtml(a) + EscapeHtml(b)
  {
    ReplaceAllAppend(a, b, '&', "&amp;");
    var a1, b1 := ReplaceAll(a, '&', "&amp;"), ReplaceAll(b, '&', "&amp;");
    ReplaceAllAppend(a1, b1, '<', "&lt;");
    var a2, b2 := ReplaceAll(a1, '<', "&lt;"), ReplaceAll(b1, '<', "&lt;");
    ReplaceAllAppend(a2, b2, '>', "&gt;");
    var a3, b3 := ReplaceAll(a2, '>', "&gt;"), ReplaceAll(b2, '>', "&gt;");
    ReplaceAllAppend(a3, b3, '"', "&quot;");
    var a4, b4 := ReplaceAll(a3, '"', "&quot;"), ReplaceAll(b3, '"', "&quot;");
    ReplaceAllAppend(a4, b4, '\'', "&#039;");
  }

  /** Replacing `c` by `rep` in a one-character string. */
  lemma ReplaceAllSingle(x: char, c: char, rep: string)
    ensures ReplaceAll([x], c, rep) == if x == c then rep else [x]
  {
    assert [x][1..] == [];
  }

  /** The five replacements of `escapeHtml` as data: pattern and entity, in the order applied. */
  const Steps: seq<(char, string)> :=
    [('&', "&amp;"), ('<', "&lt;"), ('>', "&gt;"), ('"', "&quot;"), ('\'', "&#039;")]

  /** Applies the replacements of `steps` one after another. */
  function Chain(s: string, steps: seq<(char, string)>): string
    decreases |steps|
  {
    if steps == [] then s else Chain(ReplaceAll(s, steps[0].0, steps[0].1), steps[1..])
  }

  lemma EscapeHtmlIsChain(s: string)
    ensures EscapeHtml(s) == Chain(s, Steps)
  {
    var st := Steps;
    assert st[1..][1..][1..][1..][1..] == [];
  }

  /** A text containing none of the patterns passes every step unchanged. */
  lemma {:induction false} ChainAbsent(t: string, steps: seq<(char, string)>)
    requires forall j :: 0 <= j < |steps| ==> steps[j].0 !in t
    ensures Chain(t, steps) == t
    decreases |steps|
  {
    if steps != [] {
      ReplaceAllAbsent(t, steps[0].0, steps[0].1);
      ChainAbsent(t, steps[1..]);
    }
  }

  /**
   A one-character text `[x]` passes the steps before its own unchanged,
   becomes that step's entity, and the entity contains none of the later
   patterns, so it is the result.
   */
  lemma {:induction false} ChainOne(x: char, steps: seq<(char, string)>, i: nat)
    requires i < |steps| && steps[i].0 == x
    requires forall j :: 0 <= j < i ==> steps[j].0 != x
    requires forall j :: i < j < |steps| ==> steps[j].0 !in steps[i].1
    ensures Chain([x], steps) == steps[i].1
    decreases i
  {
    ReplaceAllSingle(x, steps[0].0, steps[0].1);
    if i == 0 {
      ChainAbsent(steps[0].1, steps[1..]);
    } else {
      ChainOne(x, steps[1..], i - 1);
    }
  }

  /** Every pattern is special, patterns are distinct, and no entity holds a later pattern. */
  lemma StepsOrdered()
    ensures |Steps| == 5
    ensures forall j :: 0 <= j < |Steps| ==> IsSpecial(Steps[j].0) && Steps[j].1 == EscapeChar(Steps[j].0)
    ensures forall i, j :: 0 <= i < j < |Steps| ==> Steps[j].0 != Steps[i].0 && Steps[j].0 !in Steps[i].1
  {
  }

  /** Once a character has passed its own step, no later step touches what it became. */
  lemma EscapeHtmlChar(x: char)
    ensures EscapeHtml([x]) == EscapeChar(x)
  {
    EscapeHtmlIsChain([x]);
    StepsOrdered();
    var st := Steps;
    if x == '&' {
      ChainOne(x, st, 0);
    } else if x == '<' {
      ChainOne(x, st, 1);
    } else if x == '>' {
      ChainOne(x, st, 2);
    } else if x == '"' {
      ChainOne(x, st, 3);
    } else if x == '\'' {
      ChainOne(x, st, 4);
    } else {
      ChainAbsent([x], st);
    }
  }

  /** The chain of five global replacements is the one-pass per-character encoder. */
  lemma {:induction false} EscapeHtmlIsOnePass(s: string)
    ensures EscapeHtml(s) == EscapeEach(s)
    decreases |s|
  {
    if s == [] {
    } else {
      assert s == [s[0]] + s[1..];
      EscapeHtmlAppend([s[0]], s[1..]);
      EscapeHtmlChar(s[0]);
      EscapeHtmlIsOnePass(s[1..]);
    }
  }

  lemma {:induction false} EscapeEachNoMarkup(s: string)
    ensures '<' !in EscapeEach(s) && '>' !in EscapeEach(s)
    ensures '"' !in EscapeEach(s) && '\'' !in EscapeEach(s)
    decreases |s|
  {
    if s != [] {
      EscapeEachNoMarkup(s[1..]);
    }
  }

  /** The output can neither open a tag nor close an attribute value. */
  lemma EscapeHtmlNoMarkup(s: string)
    ensures '<' !in EscapeHtml(s) && '>' !in EscapeHtml(s)
    ensures '"' !in EscapeHtml(s) && '\'' !in EscapeHtml(s)
  {
    EscapeHtmlIsOnePass(s);
    EscapeEachNoMarkup(s);
  }

  lemma {:induction false} EscapeEachPlain(s: string)
    requires forall i :: 0 <= i < |s| ==> !IsSpecial(s[i])
    ensures EscapeEach(s) == s
    decreases |s|
  {
    if s != [] {
      EscapeEachPlain(s[1..]);
      assert s == [s[0]] + s[1..];
    }
  }

  /** A string with none of the five special characters comes back unchanged. */
  lemma EscapeHtmlPlain(s: string)
    requires forall i :: 0 <= i < |s| ==> !IsSpecial(s[i])
    ensures EscapeHtml(s) == s
  {
    EscapeHtmlIsOnePass(s);
    EscapeEachPlain(s);
  }

  /** Decodes exactly the five entities EscapeHtml produces; any other character is kept. */
  function Unescape(s: string): string
    decreases |s|
  {
    if s == [] then []
    else if |s| >= 5 && s[..5] == "&amp;" then "&" + Unescape(s[5..])
    else if |s| >= 4 && s[..4] == "&lt;" then "<" + Unescape(s[4..])
    else if |s| >= 4 && s[..4] == "&gt;" then ">" + Unescape(s[4..])
    else if |s| >= 6 && s[..6] == "&quot;" then "\"" + Unescape(s[6..])
    else if |s| >= 6 && s[..6] == "&#039;" then "'" + Unescape(s[6..])
    else [s[0]] + Unescape(s[1..])
  }

  /** Decoding one encoded character in front of the rest of an encoded string. */
  lemma UnescapeStep(c: char, rest: string)
    ensures Unescape(EscapeChar(c) + rest) == [c] + Unescape(rest)
  {
    var t := EscapeChar(c) + rest;
    if c == '&' {
      assert t[..5] == "&amp;" && t[5..] == rest;
    } else if c == '<' {
      assert t[..4] == "&lt;" && t[4..] == rest;
      assert |t| >= 5 ==> t[..5] != "&amp;" by { assert t[1] == 'l'; }
    } else if c == '>' {
      assert t[..4] == "&gt;" && t[4..] == rest;
      assert |t| >= 5 ==> t[..5] != "&amp;" by { assert t[1] == 'g'; }
      assert t[..4] != "&lt;" by { assert t[1] == 'g'; }
    } else if c == '"' {
      assert t[..6] == "&quot;" && t[6..] == rest;
      assert t[..5] != "&amp;" by { assert t[1] == 'q'; }
      assert t[..4] != "&lt;" by { assert t[1] == 'q'; }
      assert t[..4] != "&gt;" by { assert t[1] == 'q'; }
    } else if c == '\'' {
      assert t[..6] == "&#039;" && t[6..] == rest;
      assert t[..5] != "&amp;" by { assert t[1] == '#'; }
      assert t[..4] != "&lt;" by { assert t[1] == '#'; }
      assert t[..4] != "&gt;" by { assert t[1] == '#'; }
      assert t[..6] != "&quot;" by { assert t[1] == '#'; }
    } else {
      assert t[0] == c && t[1..] == rest;
      assert |t| >= 4 ==> t[..4][0] != '&';
      assert |t| >= 5 ==> t[..5][0] != '&';
      assert |t| >= 6 ==> t[..6][0] != '&';
    }
  }

  lemma {:induction false} UnescapeEscapeEach(s: string)
    ensures Unescape(EscapeEach(s)) == s
    decreases |s|
  {
    if s != [] {
      UnescapeStep(s[0], EscapeEach(s[1..]));
      UnescapeEscapeEach(s[1..]);
      assert s == [s[0]] + s[1..];
    }
  }

  /** Escaping loses nothing: distinct strings stay distinct in the report. */
  lemma EscapeHtmlInjective(s: string)
    ensures Unescape(EscapeHtml(s)) == s
  {
    EscapeHtmlIsOnePass(s);
    UnescapeEscapeEach(s);
  }
}

=== FILE: scan.dfy ===
/**
 The bookmark scan of `analyzeBookmarks`: a walk over the bookmark forest that
 counts every URL node, records URLs seen more than once, sets non-HTTP URLs
 aside as ignored and sends every other URL through the controller to a probe
 raced against a five-second timer. The probe and the timer are an oracle
 here: for each URL it yields the response that arrived first, or Timeout.
 */
module Scan {
  import opened Wrappers
  import Decimal

  /** A node of the bookmark tree; a missing `children` array is the empty sequence. */
  datatype Bookmark = Bookmark(title: string, url: Option<string>, children: seq<Bookmark>)

  /** The `{title, url}` pair kept for a URL node. */
  datatype WorkItem = WorkItem(title: string, url: string)

  /** What the race of the background probe against the timer settled with. */
  datatype ProbeResult = Response(status: int, error: Option<string>) | Timeout

  datatype Verdict = Verified | Unverified(message: string) | Ignored

  /** An entry of `invalidUrls`. */
  datatype Invalid = Invalid(title: string, url: string, error: string)

  /** The message of the timer's rejection. */
  const TimeoutMessage: string := "请求超时（5秒）"

  /** `if (node.url)`: an absent URL and the empty string are both falsy. */
  predicate HasUrl(n: Bookmark)
  {
    n.url.Some? && n.url.value != ""
  }

  function ItemOf(n: Bookmark): WorkItem
    requires HasUrl(n)
  {
    WorkItem(n.title, n.url.value)
  }

  predicate StartsWith(s: string, prefix: string)
  {
    |prefix| <= |s| && s[..|prefix|] == prefix
  }

  /** The protocol test: case-sensitive prefixes `http:` and `https:`. */
  predicate IsHttp(url: string)
  {
    StartsWith(url, "http:") || StartsWith(url, "https:")
  }

  /**
   The protocol test character by character: a lower-case `http`, then a
   colon, or an `s` and a colon. `HTTP://x` and `httpx:` are not HTTP.
   */
  lemma HttpSchemes(url: string)
    ensures IsHttp(url) <==>
              && |url| >= 5 && url[0] == 'h' && url[1] == 't' && url[2] == 't' && url[3] == 'p'
              && (url[4] == ':' || (url[4] == 's' && |url| >= 6 && url[5] == ':'))
  {
    if |url| >= 5 && url[..5] == "http:" {
      assert url[..5][0] == url[0] && url[..5][4] == url[4];
    }
    if |url| >= 6 && url[..6] == "https:" {
      assert url[..6][0] == url[0] && url[..6][5] == url[5];
    }
  }

  // ---------------------------------------------------------------------------
  // The walk
  // ---------------------------------------------------------------------------

  /**
   The URL nodes `scan` counts, in depth-first order. An ignored URL node
   returns before its children are scanned; every other node goes on to its
   children.
   */
  function NodeOrder(n: Bookmark): (r: seq<WorkItem>)
    ensures HasUrl(n) ==> |r| >= 1 && r[0] == ItemOf(n)
    ensures HasUrl(n) && !IsHttp(n.url.value) ==> r == [ItemOf(n)]
    ensures HasUrl(n) && IsHttp(n.url.value) ==> r[1..] == ForestOrder(n.children)
    ensures !HasUrl(n) ==> r == ForestOrder(n.children)
    ensures forall i :: 0 <= i < |r| ==> r[i].url != ""
    decreases n, 1
  {
    if HasUrl(n) && !IsHttp(n.url.value) then [ItemOf(n)]
    else (if HasUrl(n) then [ItemOf(n)] else []) + ForestOrder(n.children)
  }

  function ForestOrder(f: seq<Bookmark>): (r: seq<WorkItem>)
    ensures forall i :: 0 <= i < |r| ==> r[i].url != ""
    decreases f, 0
  {
    if f == [] then [] else NodeOrder(f[0]) + ForestOrder(f[1..])
  }

  /** Every URL node of the forest, whatever its ancestors are. */
  function NodeUrls(n: Bookmark): seq<WorkItem>
    decreases n, 1
  {
    (if HasUrl(n) then [ItemOf(n)] else []) + ForestUrls(n.children)
  }

  function ForestUrls(f: seq<Bookmark>): seq<WorkItem>
    decreases f, 0
  {
    if f == [] then [] else NodeUrls(f[0]) + ForestUrls(f[1..])
  }

  /** The shape the browser hands out: a node with a URL has no children. */
  predicate NodeHasLeafUrls(n: Bookmark)
    decreases n, 1
  {
    (HasUrl(n) ==> n.children == []) && ForestHasLeafUrls(n.children)
  }

  predicate ForestHasLeafUrls(f: seq<Bookmark>)
    decreases f, 0
  {
    f == [] || (NodeHasLeafUrls(f[0]) && ForestHasLeafUrls(f[1..]))
  }

  lemma {:induction false} NodeOrderWithin(n: Bookmark)
    ensures |NodeOrder(n)| <= |NodeUrls(n)|
    ensures NodeHasLeafUrls(n) ==> NodeOrder(n) == NodeUrls(n)
    decreases n, 1
  {
    ForestOrderWithin(n.children);
    if HasUrl(n) && !IsHttp(n.url.value) && NodeHasLeafUrls(n) {
      assert ForestUrls(n.children) == [];
    }
  }

  /**
   The scan never counts a node the forest does not have; on a forest whose
   URL nodes are leaves it counts every URL node, in depth-first order.
   */
  lemma {:induction false} ForestOrderWithin(f: seq<Bookmark>)
    ensures |ForestOrder(f)| <= |ForestUrls(f)|
    ensures ForestHasLeafUrls(f) ==> ForestOrder(f) == ForestUrls(f)
    decreases f, 0
  {
    if f != [] {
      NodeOrderWithin(f[0]);
      ForestOrderWithin(f[1..]);
    }
  }

  lemma ForestOrderSingle(n: Bookmark)
    ensures ForestOrder([n]) == NodeOrder(n)
  {
    assert [n][1..] == [];
  }

  /**
   Every tree of a forest is walked, whatever the trees before it hold: the
   walk of two forests side by side is the first walk followed by the second.
   */
  lemma {:induction false} ForestOrderAppend(a: seq<Bookmark>, b: seq<Bookmark>)
    ensures ForestOrder(a + b) == ForestOrder(a) + ForestOrder(b)
    decreases |a|
  {
    if a == [] {
      assert a + b == b;
    } else {
      assert (a + b)[0] == a[0];
      assert (a + b)[1..] == a[1..] + b;
      ForestOrderAppend(a[1..], b);
    }
  }

  /** No ignored URL node has a URL node below it, so the early return hides nothing. */
  predicate NodeHidesNothing(n: Bookmark)
    decreases n, 1
  {
    (HasUrl(n) && !IsHttp(n.url.value) ==> ForestUrls(n.children) == [])
    && ForestHidesNothing(n.children)
  }

  predicate ForestHidesNothing(f: seq<Bookmark>)
    decreases f, 0
  {
    f == [] || (NodeHidesNothing(f[0]) && ForestHidesNothing(f[1..]))
  }

  lemma {:induction false} NodeOrderComplete(n: Bookmark)
    requires NodeHidesNothing(n)
    ensures NodeOrder(n) == NodeUrls(n)
    decreases n, 1
  {
    ForestOrderComplete(n.children);
  }

  /**
   Where no ignored URL node has URL nodes below it, the walk counts every
   URL node of the forest, children of HTTP nodes included, in depth-first
   order.
   */
  lemma {:induction false} ForestOrderComplete(f: seq<Bookmark>)
    requires ForestHidesNothing(f)
    ensures ForestOrder(f) == ForestUrls(f)
    decreases f, 0
  {
    if f != [] {
      NodeOrderComplete(f[0]);
      ForestOrderComplete(f[1..]);
    }
  }

  // ---------------------------------------------------------------------------
  // Classification
  // ---------------------------------------------------------------------------

  /** `response.error || \`HTTP ${response.status}\``: an empty error string is falsy too. */
  function FailureMessage(status: int, error: Option<string>): (r: string)
    ensures r != ""
    ensures error.Some? && error.value != "" ==> r == error.value
    ensures error.None? || error.value == "" ==>
              |r| > 5 && r[..5] == "HTTP " && r[5..] == Decimal.IntToString(status)
  {
    if error.Some? && error.value != "" then error.value
    else "HTTP " + Decimal.IntToString(status)
  }

  /** The task's verdict once the race has settled. */
  function Outcome(r: ProbeResult): (v: Verdict)
    ensures !v.Ignored?
    ensures v.Verified? <==> r.Response? && 200 <= r.status < 400
    ensures r.Timeout? ==> v == Unverified(TimeoutMessage)
    ensures r.Response? && !v.Verified? && r.error.Some? && r.error.value != "" ==>
              v == Unverified(r.error.value)
    ensures r.Response? && !v.Verified? && (r.error.None? || r.error.value == "") ==>
              v == Unverified("HTTP " + Decimal.IntToString(r.status))
  {
    match r
    case Timeout => Unverified(TimeoutMessage)
    case Response(status, error) =>
      if 200 <= status < 400 then Verified else Unverified(FailureMessage(status, error))
  }

  /** The one verdict a URL node gets; an ignored one never reaches the probe. */
  function Classify(item: WorkItem, probe: string -> ProbeResult): (v: Verdict)
    ensures v.Ignored? <==> !IsHttp(item.url)
    ensures IsHttp(item.url) ==> v == Outcome(probe(item.url))
    ensures v.Verified? <==>
              IsHttp(item.url) && probe(item.url).Response?
              && 200 <= probe(item.url).status < 400
  {
    if !IsHttp(item.url) then Ignored else Outcome(probe(item.url))
  }

  // ---------------------------------------------------------------------------
  // Counters and result lists
  // ---------------------------------------------------------------------------

  datatype Report = Report(
    total: nat,
    verified: nat,
    unverified: nat,
    ignored: nat,
    processed: nat,
    seen: map<string, nat>,        // urlMap
    duplicates: set<string>,
    invalidUrls: seq<Invalid>,
    ignoredUrls: seq<WorkItem>)

  const Empty: Report := Report(0, 0, 0, 0, 0, map[], {}, [], [])

  /** `urlMap.get(url) || 0`. */
  function Seen(m: map<string, nat>, url: string): nat
  {
    if url in m then m[url] else 0
  }

  /** The bookkeeping the counters keep at every instant. */
  predicate Consistent(st: Report)
  {
    && st.processed == st.verified + st.unverified + st.ignored
    && st.processed <= st.total
    && |st.invalidUrls| == st.unverified
    && |st.ignoredUrls| == st.ignored
  }

  datatype Visited = Visited(report: Report, submitted: bool)

  /**
   The synchronous part of `scan` for a URL node: count it, count its URL,
   record a repeat, and either settle it at once as ignored or hand it to the
   controller. The number of nodes counted but not yet settled grows by one
   exactly when the node is handed on.
   */
  function Visit(st: Report, item: WorkItem): (r: Visited)
    ensures r.submitted <==> IsHttp(item.url)
    ensures r.report.total == st.total + 1
    ensures Seen(r.report.seen, item.url) == Seen(st.seen, item.url) + 1
    ensures r.report.seen == st.seen[item.url := Seen(st.seen, item.url) + 1]
    ensures item.url in r.report.duplicates <==> item.url in st.duplicates || Seen(st.seen, item.url) > 0
    ensures forall u :: u != item.url ==> (u in r.report.duplicates <==> u in st.duplicates)
    ensures !r.submitted ==> r.report.ignoredUrls == st.ignoredUrls + [item]
    ensures r.submitted ==> r.report.ignoredUrls == st.ignoredUrls
    ensures r.report.ignored == st.ignored + (if r.submitted then 0 else 1)
    ensures r.report.verified == st.verified && r.report.unverified == st.unverified
    ensures r.report.invalidUrls == st.invalidUrls
    ensures Consistent(st) ==> Consistent(r.report)
    ensures r.report.total - r.report.processed
            == st.total - st.processed + (if r.submitted then 1 else 0)
  {
    var count := Seen(st.seen, item.url);
    var counted := st.(total := st.total + 1, seen := st.seen[item.url := count + 1],
                       duplicates := if count > 0 then st.duplicates + {item.url} else st.duplicates);
    if !IsHttp(item.url) then
      Visited(counted.(ignored := counted.ignored + 1, processed := counted.processed + 1,
                       ignoredUrls := counted.ignoredUrls + [item]), false)
    else Visited(counted, true)
  }

  /**
   A submitted task settling: exactly one of verified or unverified goes up,
   and processed with it. Settling needs a node counted but not yet settled,
   so processed never overtakes total.
   */
  function Settle(st: Report, item: WorkItem, v: Verdict): (r: Report)
    requires !v.Ignored?
    ensures r.total == st.total && r.processed == st.processed + 1
    ensures r.ignored == st.ignored && r.ignoredUrls == st.ignoredUrls
    ensures r.seen == st.seen && r.duplicates == st.duplicates
    ensures v.Verified? ==> r.verified == st.verified + 1 && r.unverified == st.unverified
                            && r.invalidUrls == st.invalidUrls
    ensures v.Unverified? ==> r.verified == st.verified && r.unverified == st.unverified + 1
                              && r.invalidUrls == st.invalidUrls + [Invalid(item.title, item.url, v.message)]
    ensures Consistent(st) && st.processed < st.total ==> Consistent(r)
  {
    match v
    case Verified => st.(verified := st.verified + 1, processed := st.processed + 1)
    case Unverified(message) =>
      st.(unverified := st.unverified + 1, processed := st.processed + 1,
          invalidUrls := st.invalidUrls + [Invalid(item.title, item.url, message)])
  }

  function Counters(st: Report): (nat, nat, nat, nat, nat)
  {
    (st.total, st.verified, st.unverified, st.ignored, st.processed)
  }

  /**
   Completions arrive in whatever order the network decides; the counters do
   not depend on it, and the unverified list only changes order.
   */
  lemma SettleCommutes(st: Report, a: WorkItem, va: Verdict, b: WorkItem, vb: Verdict)
    requires !va.Ignored? && !vb.Ignored?
    ensures Counters(Settle(Settle(st, a, va), b, vb)) == Counters(Settle(Settle(st, b, vb), a, va))
    ensures multiset(Settle(Settle(st, a, va), b, vb).invalidUrls)
            == multiset(Settle(Settle(st, b, vb), a, va).invalidUrls)
  {
  }

  /** Sibling subtrees are scanned in no fixed order; visiting two nodes either way round agrees. */
  lemma VisitCommutes(st: Report, a: WorkItem, b: WorkItem)
    ensures var ab := Visit(Visit(st, a).report, b).report;
            var ba := Visit(Visit(st, b).report, a).report;
            && Counters(ab) == Counters(ba)
            && (forall u :: Seen(ab.seen, u) == Seen(ba.seen, u))
            && ab.duplicates == ba.duplicates
            && multiset(ab.ignoredUrls) == multiset(ba.ignoredUrls)
  {
    var sa, sb := Visit(st, a).report, Visit(st, b).report;
    var ab := Visit(sa, b).report;
    var ba := Visit(sb, a).report;
    forall u
      ensures u in ab.duplicates <==> u in ba.duplicates
    {
      if u == a.url && u == b.url {
        assert u in ab.duplicates && u in ba.duplicates;
      } else if u == a.url {
        assert Seen(sb.seen, u) == Seen(st.seen, u);
        assert u in sa.duplicates <==> u in st.duplicates || Seen(st.seen, u) > 0;
      } else if u == b.url {
        assert Seen(sa.seen, u) == Seen(st.seen, u);
        assert u in sb.duplicates <==> u in st.duplicates || Seen(st.seen, u) > 0;
      }
    }
  }

  // ---------------------------------------------------------------------------
  // The whole scan, every task completing
  // ---------------------------------------------------------------------------

  /** One URL node from discovery to its settled verdict. */
  function ScanItem(st: Report, item: WorkItem, probe: string -> ProbeResult): (r: Report)
    ensures r.total == st.total + 1 && r.processed == st.processed + 1
    ensures Consistent(st) ==> Consistent(r)
    ensures r.seen == Visit(st, item).report.seen
    ensures r.duplicates == Visit(st, item).report.duplicates
    ensures var v := Classify(item, probe);
            && r.verified == st.verified + (if v.Verified? then 1 else 0)
            && r.unverified == st.unverified + (if v.Unverified? then 1 else 0)
            && r.ignored == st.ignored + (if v.Ignored? then 1 else 0)
            && r.invalidUrls == st.invalidUrls
                                + (if v.Unverified? then [Invalid(item.title, item.url, v.message)] else [])
            && r.ignoredUrls == st.ignoredUrls + (if v.Ignored? then [item] else [])
  {
    var v := Visit(st, item);
    if v.submitted then Settle(v.report, item, Classify(item, probe)) else v.report
  }

  /**
   Every item in turn. Each one is counted and settled, so total and processed
   both grow by the number of items and the bookkeeping stays consistent.
   */
  function ScanAll(st: Report, items: seq<WorkItem>, probe: string -> ProbeResult): (r: Report)
    ensures r.total == st.total + |items| && r.processed == st.processed + |items|
    ensures Consistent(st) ==> Consistent(r)
    decreases |items|
  {
    if items == [] then st else ScanAll(ScanItem(st, items[0], probe), items[1..], probe)
  }

  /** `analyzeBookmarks` on a forest, once every submitted task has settled. */
  function ScanForest(forest: seq<Bookmark>, probe: string -> ProbeResult): (r: Report)
    ensures r.total == |ForestOrder(forest)| && r.processed == r.total
    ensures Consistent(r)
  {
    ScanAll(Empty, ForestOrder(forest), probe)
  }

  // Reference definitions, each item on its own.

  function CountVerified(items: seq<WorkItem>, probe: string -> ProbeResult): nat
    decreases |items|
  {
    if items == [] then 0
    else (if Classify(items[0], probe).Verified? then 1 else 0) + CountVerified(items[1..], probe)
  }

  function CountIgnored(items: seq<WorkItem>): nat
    decreases |items|
  {
    if items == [] then 0
    else (if !IsHttp(items[0].url) then 1 else 0) + CountIgnored(items[1..])
  }

  function InvalidList(items: seq<WorkItem>, probe: string -> ProbeResult): seq<Invalid>
    decreases |items|
  {
    if items == [] then []
    else
      var v := Classify(items[0], probe);
      (if v.Unverified? then [Invalid(items[0].title, items[0].url, v.message)] else [])
      + InvalidList(items[1..], probe)
  }

  function IgnoredList(items: seq<WorkItem>): seq<WorkItem>
    decreases |items|
  {
    if items == [] then []
    else (if !IsHttp(items[0].url) then [items[0]] else []) + IgnoredList(items[1..])
  }

  function Urls(items: seq<WorkItem>): (r: seq<string>)
    ensures |r| == |items|
    decreases |items|
  {
    if items == [] then [] else [items[0].url] + Urls(items[1..])
  }

  /** The URLs that occur at least twice, each once however often it occurs. */
  function Duplicates(urls: seq<string>): set<string>
  {
    set u | u in urls && multiset(urls)[u] >= 2
  }

  /** Every URL node lands in exactly one of the three classes. */
  lemma {:induction false} ClassesPartition(items: seq<WorkItem>, probe: string -> ProbeResult)
    ensures CountVerified(items, probe) + |InvalidList(items, probe)| + CountIgnored(items) == |items|
    ensures |IgnoredList(items)| == CountIgnored(items)
    decreases |items|
  {
    if items != [] {
      ClassesPartition(items[1..], probe);
    }
  }

  lemma ScanAllUnfold(st: Report, items: seq<WorkItem>, probe: string -> ProbeResult)
    requires items != []
    ensures ScanAll(st, items, probe) == ScanAll(ScanItem(st, items[0], probe), items[1..], probe)
  {
  }

  /** The counters of a fold are the starting counters plus the reference counts. */
  lemma {:induction false} ScanAllCounts(st: Report, items: seq<WorkItem>, probe: string -> ProbeResult)
    ensures var r := ScanAll(st, items, probe);
            && r.total == st.total + |items|
            && r.processed == st.processed + |items|
            && r.verified == st.verified + CountVerified(items, probe)
            && r.unverified == st.unverified + |InvalidList(items, probe)|
            && r.ignored == st.ignored + CountIgnored(items)
    decreases |items|
  {
    if items != [] {
      ScanAllUnfold(st, items, probe);
      ScanAllCounts(ScanItem(st, items[0], probe), items[1..], probe);
    }
  }

  /** One fold step moves the head's entry, if any, from the reference lists to the report. */
  lemma ScanStepLists(st: Report, items: seq<WorkItem>, probe: string -> ProbeResult)
    requires items != []
    ensures ScanItem(st, items[0], probe).invalidUrls + InvalidList(items[1..], probe)
            == st.invalidUrls + InvalidList(items, probe)
    ensures ScanItem(st, items[0], probe).ignoredUrls + IgnoredList(items[1..])
            == st.ignoredUrls + IgnoredList(items)
  {
    var v := Classify(items[0], probe);
    var headInvalid := if v.Unverified? then [Invalid(items[0].title, items[0].url, v.message)] else [];
    var headIgnored := if v.Ignored? then [items[0]] else [];
    var r := ScanItem(st, items[0], probe);
    assert r.invalidUrls == st.invalidUrls + headInvalid;
    assert r.ignoredUrls == st.ignoredUrls + headIgnored;
    assert InvalidList(items, probe) == headInvalid + InvalidList(items[1..], probe);
    assert IgnoredList(items) == headIgnored + IgnoredList(items[1..]);
    AppendAssoc(st.invalidUrls, headInvalid, InvalidList(items[1..], probe));
    AppendAssoc(st.ignoredUrls, headIgnored, IgnoredList(items[1..]));
  }

  lemma AppendAssoc<T>(a: seq<T>, b: seq<T>, c: seq<T>)
    ensures a + b + c == a + (b + c)
  {
  }

  /** The result lists of a fold are the starting lists extended by the reference lists. */
  lemma {:induction false} ScanAllLists(st: Report, items: seq<WorkItem>, probe: string -> ProbeResult)
    ensures ScanAll(st, items, probe).invalidUrls == st.invalidUrls + InvalidList(items, probe)
    ensures ScanAll(st, items, probe).ignoredUrls == st.ignoredUrls + IgnoredList(items)
    decreases |items|
  {
    if items != [] {
      ScanAllUnfold(st, items, probe);
      ScanAllLists(ScanItem(st, items[0], probe), items[1..], probe);
      ScanStepLists(st, items, probe);
    }
  }

  /** Reference count of every URL in `history`, built one URL at a time as `urlMap` is. */
  function CountMap(history: seq<string>): map<string, nat>
    decreases |history|
  {
    if history == [] then map[]
    else
      var m := CountMap(history[..|history| - 1]);
      var last := history[|history| - 1];
      m[last := Seen(m, last) + 1]
  }

  lemma {:induction false} CountMapCounts(history: seq<string>, u: string)
    ensures Seen(CountMap(history), u) == multiset(history)[u]
    decreases |history|
  {
    if history != [] {
      var front := history[..|history| - 1];
      assert history == front + [history[|history| - 1]];
      CountMapCounts(front, u);
    }
  }

  /** `seen` is the count map of `history`, and `duplicates` holds exactly its repeated URLs. */
  predicate Tracks(st: Report, history: seq<string>)
  {
    st.seen == CountMap(history) && st.duplicates == Duplicates(history)
  }

  lemma VisitTracks(st: Report, item: WorkItem, history: seq<string>)
    requires Tracks(st, history)
    ensures Tracks(Visit(st, item).report, history + [item.url])
  {
    var r := Visit(st, item).report;
    var h := history + [item.url];
    assert h[..|h| - 1] == history;
    assert multiset(h) == multiset(history) + multiset{item.url};
    CountMapCounts(history, item.url);
    forall u | u in r.duplicates
      ensures u in Duplicates(h)
    {
      CountMapCounts(history, u);
      if u == item.url {
        assert multiset(h)[u] >= 2;
      } else {
        assert u in history;
      }
    }
    forall u | u in Duplicates(h)
      ensures u in r.duplicates
    {
      CountMapCounts(history, u);
      if u != item.url {
        assert u in history;
        assert u in Duplicates(history);
      }
    }
  }

  /** One fold step keeps the tracking, one URL further along the history. */
  lemma ScanStepTracks(st: Report, items: seq<WorkItem>, probe: string -> ProbeResult, history: seq<string>)
    requires Tracks(st, history)
    requires items != []
    ensures ScanAll(st, items, probe) == ScanAll(ScanItem(st, items[0], probe), items[1..], probe)
    ensures Tracks(ScanItem(st, items[0], probe), history + [items[0].url])
  {
    VisitTracks(st, items[0], history);
    ScanAllUnfold(st, items, probe);
  }

  /** The fold keeps `seen` and `duplicates` in step with every URL met so far. */
  lemma {:induction false} ScanAllTracks(st: Report, items: seq<WorkItem>, probe: string -> ProbeResult,
                                         history: seq<string>, full: seq<string>)
    requires Tracks(st, history)
    requires full == history + Urls(items)
    ensures Tracks(ScanAll(st, items, probe), full)
    decreases |items|
  {
    if items == [] {
      assert full == history;
    } else {
      var h := history + [items[0].url];
      ScanStepTracks(st, items, probe, history);
      assert Urls(items) == [items[0].url] + Urls(items[1..]);
      assert full == h + Urls(items[1..]);
      ScanAllTracks(ScanItem(st, items[0], probe), items[1..], probe, h, full);
    }
  }

  /**
   After a full scan in which every task settles: total counts the scanned
   URL nodes, every one of them is processed into exactly one class, the
   result lists match their counters, and the duplicate set holds exactly the
   URLs met twice or more, ignored ones included.
   */
  lemma ScanForestReport(forest: seq<Bookmark>, probe: string -> ProbeResult)
    ensures var items := ForestOrder(forest);
            var r := ScanForest(forest, probe);
            && r.total == |items|
            && r.processed == r.total
            && r.processed == r.verified + r.unverified + r.ignored
            && r.verified == CountVerified(items, probe)
            && r.ignored == CountIgnored(items)
            && r.invalidUrls == InvalidList(items, probe)
            && r.ignoredUrls == IgnoredList(items)
            && |r.invalidUrls| == r.unverified
            && |r.ignoredUrls| == r.ignored
            && r.duplicates == Duplicates(Urls(items))
  {
    var items := ForestOrder(forest);
    ScanAllCounts(Empty, items, probe);
    ScanAllLists(Empty, items, probe);
    ClassesPartition(items, probe);
    assert Tracks(Empty, []);
    assert [] + Urls(items) == Urls(items);
    ScanAllTracks(Empty, items, probe, [], Urls(items));
  }

  // ---------------------------------------------------------------------------
  // Any interleaving of discoveries and completions
  // ---------------------------------------------------------------------------

  /** The two things that change the report: the walk meeting a URL node, and a probe settling. */
  datatype ScanEvent = Discover(item: WorkItem) | Finish(item: WorkItem, verdict: Verdict)

  /** A probe can settle only while some discovered node is still pending, and never as ignored. */
  predicate ScanEnabled(st: Report, e: ScanEvent)
  {
    e.Finish? ==> !e.verdict.Ignored? && st.processed < st.total
  }

  function ScanApply(st: Report, e: ScanEvent): Report
    requires ScanEnabled(st, e)
  {
    match e
    case Discover(item) => Visit(st, item).report
    case Finish(item, v) => Settle(st, item, v)
  }

  /** Applies events in order; None if a completion arrives with nothing pending. */
  function ScanReplay(st: Report, events: seq<ScanEvent>): Option<Report>
    decreases |events|
  {
    if events == [] then Some(st)
    else if !ScanEnabled(st, events[0]) then None
    else ScanReplay(ScanApply(st, events[0]), events[1..])
  }

  function Discoveries(events: seq<ScanEvent>): nat
    decreases |events|
  {
    if events == [] then 0 else (if events[0].Discover? then 1 else 0) + Discoveries(events[1..])
  }

  /**
   Whatever order the walk and the network interleave in, the counters stay
   consistent: processed never overtakes total, and total counts exactly the
   nodes discovered.
   */
  lemma {:induction false} ScanReplayConsistent(st: Report, events: seq<ScanEvent>)
    requires Consistent(st)
    requires ScanReplay(st, events).Some?
    ensures Consistent(ScanReplay(st, events).value)
    ensures ScanReplay(st, events).value.processed <= ScanReplay(st, events).value.total
    ensures ScanReplay(st, events).value.total == st.total + Discoveries(events)
    decreases |events|
  {
    if events != [] {
      ScanReplayConsistent(ScanApply(st, events[0]), events[1..]);
    }
  }

  // ---------------------------------------------------------------------------
  // Worked examples
  // ---------------------------------------------------------------------------

  function Leaf(title: string, url: string): Bookmark
  {
    Bookmark(title, Some(url), [])
  }

  lemma LeafOrder(title: string, url: string)
    requires url != ""
    ensures ForestOrder([Leaf(title, url)]) == [WorkItem(title, url)]
  {
    assert [Leaf(title, url)][1..] == [];
  }

  lemma HttpByPrefix(url: string)
    requires |url| >= 5 && url[..5] == "http:"
    ensures IsHttp(url)
  {
  }

  lemma NotHttpByFirst(url: string)
    requires |url| >= 1 && url[0] != 'h'
    ensures !IsHttp(url)
  {
    if |url| >= 5 { assert url[..5][0] != "http:"[0]; }
    if |url| >= 6 { assert url[..6][0] != "https:"[0]; }
  }

  /** `http://a` answers 200; every other URL never answers before the timer fires. */
  function OnlyAAnswers(url: string): ProbeResult
  {
    if url == "http://a" then Response(200, None) else Timeout
  }

  const MixedLeaves: seq<Bookmark> := [Leaf("a", "http://a"), Leaf("b", "ftp://b"), Leaf("c", "http://c")]

  const MixedItems: seq<WorkItem> := [WorkItem("a", "http://a"), WorkItem("b", "ftp://b"), WorkItem("c", "http://c")]

  lemma MixedLeavesOrder()
    ensures ForestOrder(MixedLeaves) == MixedItems
  {
    var f := MixedLeaves;
    LeafOrder("a", "http://a");
    LeafOrder("b", "ftp://b");
    LeafOrder("c", "http://c");
    assert f[1..][1..] == [Leaf("c", "http://c")];
    assert ForestOrder(f[1..][1..]) == [WorkItem("c", "http://c")];
    assert NodeOrder(f[1]) == [WorkItem("b", "ftp://b")];
    assert ForestOrder(f[1..]) == [WorkItem("b", "ftp://b"), WorkItem("c", "http://c")];
  }

  lemma MixedLeavesClasses()
    ensures CountVerified(MixedItems, OnlyAAnswers) == 1
    ensures CountIgnored(MixedItems) == 1
    ensures InvalidList(MixedItems, OnlyAAnswers) == [Invalid("c", "http://c", TimeoutMessage)]
    ensures IgnoredList(MixedItems) == [WorkItem("b", "ftp://b")]
  {
    var items := MixedItems;
    HttpByPrefix("http://a");
    HttpByPrefix("http://c");
    NotHttpByFirst("ftp://b");
    assert "http://c" != "http://a" by { assert "http://c"[7] != "http://a"[7]; }
    assert Classify(items[0], OnlyAAnswers) == Verified;
    assert Classify(items[1], OnlyAAnswers) == Ignored;
    assert Classify(items[2], OnlyAAnswers) == Unverified(TimeoutMessage);
    assert items[1..][1..] == [items[2]];
    assert items[1..][1..][1..] == [];
  }

  lemma MixedLeavesNoRepeats()
    ensures Duplicates(Urls(MixedItems)) == {}
  {
    var urls := Urls(MixedItems);
    assert MixedItems[1..][1..] == [MixedItems[2]];
    assert urls == ["http://a", "ftp://b", "http://c"];
    assert "http://c" != "http://a" by { assert "http://c"[7] != "http://a"[7]; }
    assert "ftp://b" != "http://a" && "ftp://b" != "http://c" by { assert "ftp://b"[0] == 'f'; }
    assert multiset(urls) == multiset{"http://a", "ftp://b", "http://c"};
    forall u | u in urls
      ensures multiset(urls)[u] == 1
    {
    }
  }

  /** One reachable, one non-HTTP and one silent URL. */
  lemma MixedLeavesExample()
    ensures var r := ScanForest(MixedLeaves, OnlyAAnswers);
            && r.total == 3 && r.processed == 3
            && r.verified == 1 && r.ignored == 1 && r.unverified == 1
            && r.invalidUrls == [Invalid("c", "http://c", TimeoutMessage)]
            && r.ignoredUrls == [WorkItem("b", "ftp://b")]
            && r.duplicates == {}
  {
    MixedLeavesOrder();
    MixedLeavesClasses();
    MixedLeavesNoRepeats();
    ScanForestReport(MixedLeaves, OnlyAAnswers);
  }

  function AllAnswer(url: string): ProbeResult
  {
    Response(200, None)
  }

  const TwoFolders: seq<Bookmark> :=
    [Bookmark("f", None, [Leaf("x1", "http://x")]), Bookmark("g", None, [Leaf("x2", "http://x")])]

  lemma TwoFoldersOrder()
    ensures ForestOrder(TwoFolders) == [WorkItem("x1", "http://x"), WorkItem("x2", "http://x")]
  {
    LeafOrder("x1", "http://x");
    LeafOrder("x2", "http://x");
    var f := TwoFolders;
    assert NodeOrder(f[0]) == [WorkItem("x1", "http://x")];
    assert NodeOrder(f[1]) == [WorkItem("x2", "http://x")];
    assert f[1..][1..] == [];
  }

  /** The same reachable URL in two folders: counted and verified twice, reported once. */
  lemma SameUrlTwiceExample()
    ensures var r := ScanForest(TwoFolders, AllAnswer);
            && r.total == 2 && r.verified == 2 && r.processed == 2
            && r.duplicates == {"http://x"}
  {
    TwoFoldersOrder();
    var items := [WorkItem("x1", "http://x"), WorkItem("x2", "http://x")];
    HttpByPrefix("http://x");
    assert items[1..][1..] == [];
    assert CountVerified(items, AllAnswer) == 2;
    var urls := Urls(items);
    assert urls == ["http://x", "http://x"];
    assert multiset(urls)["http://x"] == 2;
    assert Duplicates(urls) == {"http://x"};
    ScanForestReport(TwoFolders, AllAnswer);
  }

  /** An ignored URL node ends the walk below it: its HTTP child is never counted. */
  lemma IgnoredNodeHidesChildren()
    ensures ForestOrder([Bookmark("b", Some("ftp://b"), [Leaf("c", "http://c")])])
            == [WorkItem("b", "ftp://b")]
    ensures ForestUrls([Bookmark("b", Some("ftp://b"), [Leaf("c", "http://c")])])
            == [WorkItem("b", "ftp://b"), WorkItem("c", "http://c")]
  {
    NotHttpByFirst("ftp://b");
    var n := Bookmark("b", Some("ftp://b"), [Leaf("c", "http://c")]);
    assert [n][1..] == [];
    assert n.children[1..] == [];
  }

  /** A node whose URL is the empty string is scanned as a folder. */
  lemma EmptyUrlIsFolder()
    ensures ForestOrder([Bookmark("e", Some(""), [Leaf("c", "http://c")])]) == [WorkItem("c", "http://c")]
  {
    LeafOrder("c", "http://c");
    assert [Bookmark("e", Some(""), [Leaf("c", "http://c")])][1..] == [];
  }
}

=== FILE: tiering.dfy ===
/**
 The concurrency ceiling chosen once, when the popup script loads, from two
 hardware hints reported by the browser (`navigator.deviceMemory` in GiB and
 `navigator.hardwareConcurrency` in logical cores).
 */
module Tiering {
  import opened Wrappers

  /** `hint || 4`: a missing hint, or one equal to zero (falsy in JavaScript), counts as 4. */
  function MemoryOrDefault(deviceMemory: Option<real>): real
  {
    if deviceMemory.Some? && deviceMemory.value != 0.0 then deviceMemory.value else 4.0
  }

  function CoresOrDefault(hardwareConcurrency: Option<int>): int
  {
    if hardwareConcurrency.Some? && hardwareConcurrency.value != 0 then hardwareConcurrency.value else 4
  }

  /** The three tiers: 17 for a high-end machine, 12 for a middle one, 8 otherwise. */
  function MaxConcurrency(deviceMemory: Option<real>, hardwareConcurrency: Option<int>): (n: int)
    ensures n == 8 || n == 12 || n == 17
    ensures n == 17 <==> MemoryOrDefault(deviceMemory) >= 8.0 && CoresOrDefault(hardwareConcurrency) >= 8
    ensures n == 12 <==>
              MemoryOrDefault(deviceMemory) >= 4.0 && CoresOrDefault(hardwareConcurrency) >= 4
              && !(MemoryOrDefault(deviceMemory) >= 8.0 && CoresOrDefault(hardwareConcurrency) >= 8)
  {
    var memory := MemoryOrDefault(deviceMemory);
    var cores := CoresOrDefault(hardwareConcurrency);
    if memory >= 8.0 && cores >= 8 then 17
    else if memory >= 4.0 && cores >= 4 then 12
    else 8
  }

  /** A machine that reports no hints at all gets the middle tier. */
  lemma NoHintsGiveMiddleTier()
    ensures MaxConcurrency(None, None) == 12
    ensures MaxConcurrency(Some(0.0), Some(0)) == 12
  {
  }

  /** More memory and more cores never lower the ceiling. */
  lemma MaxConcurrencyMonotone(m1: Option<real>, c1: Option<int>, m2: Option<real>, c2: Option<int>)
    requires MemoryOrDefault(m1) <= MemoryOrDefault(m2)
    requires CoresOrDefault(c1) <= CoresOrDefault(c2)
    ensures MaxConcurrency(m1, c1) <= MaxConcurrency(m2, c2)
  {
  }
}

=== FILE: wrappers.dfy ===
/** The optional value used for the popup's `undefined`-able fields and hints. */
module Wrappers {

  datatype Option<+T> = None | Some(value: T)
}
